=== FILE: README.md ===
# libkovan camera detection cache and depth scanline queries, in Dafny

This project models two sequential cores of libkovan and proves properties of
the models.

1. **The lazy detection cache of the camera library** (`src/camera.cpp`).
   A `Device` pulls frames from its input provider. When it has channels, it
   hands each new frame to every shared per-type `ChannelImpl` in its
   `ChannelImplManager`, which marks the impl dirty, and it invalidates every
   `Channel`. A channel's
   `objects()` then recomputes lazily:
   - the impl runs its expensive preprocessing pass (`update`) at most once
     per dirty cycle, and its detection pass (`findObjects`) on every query;
   - the channel sorts the result largest bounding box first and caches it
     behind a validity flag;
   - a channel whose "type" is empty or unregistered has no impl and answers
     with a null pointer, which is not the same as an empty list.

   The module also covers the `ConfigPath` string helpers and the `Object`
   constructors.
2. **The depth scanline query surface** (`src/depth_c.cpp`). The module-wide
   globals (depth image, orientation, scan row, segment list) are one state
   value.
   - `depth_update` fetches an image and clears the scanline.
   - `depth_scanline_update(row)` validates the row, segments it and sorts the
     segments by the z of each segment's middle column.
   - The count, point, size and angle queries return -1 or (-1, -1, -1)
     sentinels whenever a precondition fails.

Every operation is a pure function from the old state (and the values the
outside world supplied) to the new state and the call's result:

- The frame source's `next` is an `Option<Frame>` argument: `None` means it
  failed.
- `Config::load` of the default configuration is an `Option<Config>`.
- The driver's `depthImage()` is a `DriverImage`: it threw, returned null, or
  returned an image. Whether the driver's `close()` returned normally is a
  `bool`.
- The detectors' `findObjects` is a `Detector` function argument.
- The row segmenter is a `Segmenter` function argument.

Frames are opaque tokens with a size. The preprocessing pass is represented by
the frame it last ran on, and each impl counts how often each pass has run.

Files and modules: `basics.dfy` (Option, fixed-width integers), `sorting.dfy`
(sorting by an integer key), `objects.dfy`, `configs.dfy` (the external
`Config` store), `config_paths.dfy`, `channel_impls.dfy`, `channels.dfy`,
`devices.dfy`, `depth.dfy`, and `depth_examples.dfy` (a concrete two-plateau
row).

Behaviour of the code worth noting:

- Segments are ordered by the z of the world point at the middle column
  `(start + end) >> 1`, not by the depth of the segment's nearest sample.
- `findMin` starts its running minimum at `0xFFFFFFF`. A segment whose
  samples are all at or above that value yields -1, and so does an empty
  segment. The point query does not check for that -1: it returns the
  driver's world point at column -1 instead of (-1, -1, -1).
- The size and angle queries read columns `start` and `end`, and `end` is the
  first column after the segment (see Findings).
- After `depth_close` with a scanline still set, the size query returns 0
  instead of -1. It checks only the scanline and the index, and both world
  points are then the sentinel.
- When the driver's `depthImage()` throws, `depth_update` returns 0 but keeps
  the previous image, so its size is still reported and its rows can still be
  scanned.
- `update()` on a device without channels stores the frame but does not pass
  it to the impls. Preprocessing therefore runs on the last frame an impl
  received, which can be older than the frame the device reports, until the
  next `update()` made while channels exist.
- `updateConfig` returns early when the channel count is not positive, which
  leaves the device's config inside the camera group.
- `cv::Mat(320, 240, ...)` takes rows first, so before the first update a
  device reports width 240 and height 320.
- `Channel::setConfig` does not look up the impl again, so changing "type"
  this way has no effect.

## Model

| member | source | states |
|---|---|---|
| `Objects.Area` | src/camera.cpp:163-170 | the area the sort compares is below 2^32 and equals width × height when that product fits in 32 bits |
| `Objects.MakeObject` | src/camera.cpp:16-30 | the constructor keeps centroid, box, confidence and length; with data it owns exactly the first `dataLength` bytes; with null data the buffer stays null while `dataLength` is still recorded |
| `Objects.CopyObject` | src/camera.cpp:32-44 | the copy has a buffer exactly when the source does, of `dataLength + 1` bytes, ending in a zero byte |
| `Objects.CopyPreservesObservable` | src/camera.cpp:32-74 | a copy is indistinguishable from the original through every accessor, and copying a copy yields the same buffer again |
| `Sorting.Sort` | src/camera.cpp:178 | the result is a permutation of the input in non-decreasing key order, which is what `std::sort` promises for both sorts |
| `Sorting.SortedPermutationsHaveSameKeys` | src/camera.cpp:178 | two key-ordered permutations of the same elements have the same length and the same key at every position, so any `std::sort` result agrees with `Sort` on every key |
| `ConfigPaths.SetBasePath` | src/camera.cpp:204-209 | the base is empty exactly when the argument is; a non-empty base always ends in '/'; it is the argument or the argument plus one '/'; an argument already ending in '/' is kept |
| `ConfigPaths.SetBasePathIdempotent` | src/camera.cpp:204-209 | setting the base path twice is the same as once |
| `ConfigPaths.InitialBasePathIsKept` | src/camera.cpp:197-219 | the initial base "/etc/botui/channels/" is unchanged by `setBasePath`, and the default record is "/etc/botui/channels/default" |
| `ConfigPaths.Path` | src/camera.cpp:211-215 | an empty name gives the base; otherwise the path is the base, then the name, then ".conf" |
| `ConfigPaths.PathRoundTrip` | src/camera.cpp:211-215 | the name can be recovered from its path |
| `ConfigPaths.PathInjective` | src/camera.cpp:211-215 | distinct names give distinct paths |
| `ConfigPaths.DefaultPath` | src/camera.cpp:217-220 | the file recording the default configuration is the base followed by "default" |
| `ConfigPaths.DefaultPathIsNoConfigPath` | src/camera.cpp:211-220 | the file recording the default is never the configuration file of any name |
| `ChannelImpls.NewImpl` | src/camera.cpp:76-79 | a new impl starts dirty with an empty frame and no pass run |
| `ChannelImpls.Stored` | src/camera.cpp:85-94 | an empty frame is stored as `cv::Mat()`; any other frame is stored as given |
| `ChannelImpls.SetImage` | src/camera.cpp:85-94 | `setImage` always leaves the impl dirty, for an empty frame or one identical to the last; an empty frame clears the stored image; nothing else changes |
| `ChannelImpls.ImplObjects` | src/camera.cpp:96-103 | the preprocessing pass runs, on the stored frame, exactly when the impl was dirty; the flag is clear afterwards; the detection pass always runs once with the given config on the preprocessed frame |
| `ChannelImpls.CleanQueriesDoNoUpdate` | src/camera.cpp:96-103 | queries on a clean impl never rerun preprocessing, and each applies its own config to the same preprocessed frame |
| `ChannelImpls.OneUpdatePerDirtyCycle` | src/camera.cpp:85-103 | after one `setImage`, N ≥ 1 queries run preprocessing exactly once, on that frame, and detection N times |
| `ChannelImpls.DefaultManager` | src/camera.cpp:109-113 | the default registry holds exactly "hsv" and "qr", each a freshly constructed impl |
| `ChannelImpls.Lookup` | src/camera.cpp:127-131 | `channelImpl(name)` is non-null exactly when `name` is registered |
| `ChannelImpls.Broadcast` | src/camera.cpp:121-125 | the manager's `setImage` gives the frame to every registered impl, so every impl is dirty; the set of impls is unchanged |
| `Channels.NewChannel` | src/camera.cpp:133-152 | a new channel is invalid with an empty cache; it has an impl exactly when "type" is non-empty, the manager is non-null and the type is registered |
| `Channels.Invalidate` | src/camera.cpp:158-161 | `invalidate` clears only the valid flag; config, impl and cached list are untouched |
| `Channels.SetConfig` | src/camera.cpp:189-193 | `setConfig` replaces the config and invalidates, keeping the impl and the stale list |
| `Channels.SetConfigThenQueryUsesNewConfig` | src/camera.cpp:172-193 | after `setConfig` the next query asks the same impl, with the new config |
| `Channels.SortByArea` | src/camera.cpp:163-178 | sorting with `LargestAreaFirst` yields a permutation with non-increasing area |
| `Channels.ChannelObjects` | src/camera.cpp:172-182 | null exactly when there is no impl; a valid channel answers with its cache and changes nothing; otherwise the impl is queried once and the cache becomes a permutation of its output in non-increasing area order; afterwards the channel is valid and only its own impl changed |
| `Channels.NullExactlyWhenUnresolved` | src/camera.cpp:133-182 | a channel's query returns null, not an empty list, exactly when its "type" is empty or unregistered |
| `Channels.SecondQueryIsCached` | src/camera.cpp:175-181 | a second query with nothing in between returns the same list and changes neither the channel nor any impl |
| `Devices.Width` | src/camera.cpp:430-434 | `width()` is 0 for an empty frame, otherwise the frame's column count |
| `Devices.Height` | src/camera.cpp:436-440 | `height()` is 0 for an empty frame, otherwise the frame's row count |
| `Devices.DecimalRoundTrip` | src/camera.cpp:532-535 | the digits written for channel index i read back as i |
| `Devices.ChannelGroupsDistinct` | src/camera.cpp:532-535 | distinct channel indices get distinct config groups |
| `Devices.UpdateConfig` | src/camera.cpp:521-540 | channels are discarded and rebuilt: none when the count is ≤ 0, otherwise exactly `numChannels`; channel i is built from the config in group camera/channel_i; frame and manager are untouched |
| `Devices.SetConfig` | src/camera.cpp:482-486 | `setConfig` installs the new config and rebuilds the channels from it: their number is the configured count (0 when not positive), channel i is built with the device's manager from the config in group camera/channel_i, and the config is left in the camera group exactly when the count is not positive |
| `Devices.NewDevice` | src/camera.cpp:388-399 | a new device has the 320-row, 240-column frame and the default manager; without a loaded config there are no channels and the config is empty; with one, the values are the loaded ones, the number of channels is its count (0 when not positive) and channel i is built with the default manager from the loaded config in group camera/channel_i |
| `Devices.Update` | src/camera.cpp:447-465 | on source failure the frame is emptied, the result is false and nothing else changes; on success without channels only the frame is stored; otherwise every impl receives the frame and every channel is invalidated |
| `Devices.DeviceChannelObjects` | src/camera.cpp:172-182 | querying one of the device's channels leaves every other channel, the frame and the config unchanged, and keeps the device's invariants; a valid or unresolved channel's query changes nothing; every impl other than the channel's own is unchanged; a recompute returns a permutation of that impl's detection with the channel's config, largest area first |
| `Devices.UpdateThenQueryRecomputesOnce` | src/camera.cpp:447-465 | after a successful update, two queries of a channel run its impl's preprocessing exactly once, on the new frame, and return the same area-ordered permutation of the detection result |
| `Devices.ChannelsShareOnePreprocessing` | src/camera.cpp:96-103 | two channels of one type share one preprocessing pass per frame, and each gets detection with its own config |
| `Devices.ChannellessUpdateNeverReachesImpls` | src/camera.cpp:447-465 | a frame received while there are no channels is reported by the device but never preprocessed: channels configured afterwards preprocess the impl's previous, empty frame |
| `Devices.InitialSize` | src/camera.cpp:388-393 | before the first update a device reports width 240 and height 320 |
| `Devices.FailedUpdateHasNoSize` | src/camera.cpp:430-453 | after a failed update width and height are 0, and channels and impls are untouched |
| `Depth.InitialValid` | src/depth_c.cpp:58-67 | the initial globals satisfy the state invariant |
| `Depth.Close` | src/depth_c.cpp:89-97 | `depth_close` nulls the image on both paths and returns 1, or 0 when the driver's `close()` throws; scanline, segments and orientation are kept |
| `Depth.SetOrientation` | src/depth_c.cpp:116-123 | `set_depth_orientation` stores the value, returns 1 and changes nothing else |
| `Depth.GetOrientation` | src/depth_c.cpp:125-131 | `get_depth_orientation` is the stored 16-bit orientation |
| `Depth.OrientationRoundTrip` | src/depth_c.cpp:116-131 | the orientation read back is the one last set |
| `Depth.Update` | src/depth_c.cpp:133-144 | `depth_update` always clears segments and sets the scan row to -1; when the driver throws it returns 0 and keeps the previous image; when the driver returns null it returns 0 and the image is null; otherwise the image gets the stored orientation and the result is 1 |
| `Depth.OrientationAppliedOnUpdate` | src/depth_c.cpp:116-144 | an orientation set before `depth_update` is applied to the new image |
| `Depth.ImageHeight` | src/depth_c.cpp:146-152 | `get_depth_image_height` is 0 without an image, otherwise the image's height |
| `Depth.ImageWidth` | src/depth_c.cpp:154-160 | `get_depth_image_width` is 0 without an image, otherwise the image's width |
| `Depth.DepthValue` | src/depth_c.cpp:162-169 | `get_depth_value` is -1 without an image, otherwise the driver's sample |
| `Depth.WorldPoint` | src/depth_c.cpp:171-179 | `get_depth_world_point` is (-1,-1,-1) without an image, otherwise the driver's point |
| `Depth.NothingReadableAfterClose` | src/depth_c.cpp:89-169 | after `depth_close`, whether or not the driver's `close()` throws, the depth value is -1, the point is the sentinel, width and height are 0, and every scanline update fails without changing anything |
| `Depth.ScanMin` | src/depth_c.cpp:199-207 | the remaining loop returns -1 exactly when no sample of the segment is below the cap, and otherwise the first column of minimum depth |
| `Depth.FindMin` | src/depth_c.cpp:196-208 | -1 without a scanline or when no sample is below `0xFFFFFFF`; otherwise the smallest column in [start, end) of minimal depth |
| `Depth.Middle` | src/depth_c.cpp:49-52 | the sort column lies within the segment and, for a non-empty segment, before its end |
| `Depth.RowSamples` | src/depth_c.cpp:217-220 | the copied row has one sample per image column, each read with `get_depth_value` |
| `Depth.SortNearestFirst` | src/depth_c.cpp:44-52 | the segments come out as a permutation in non-decreasing z at their middle columns |
| `Depth.ScanlineUpdate` | src/depth_c.cpp:210-228 | a row outside [0, height) returns 0 and changes nothing; otherwise the scan row becomes the row, the result is 1, and the segments are the segmenter's output for that row, permuted nearest first by middle-column z |
| `Depth.ObjectCount` | src/depth_c.cpp:230-235 | -1 exactly when there is no image or no scanline, otherwise the number of segments |
| `Depth.ObjectPoint` | src/depth_c.cpp:237-249 | (-1,-1,-1) without an image, a scanline or a valid index; otherwise the world point at the column `findMin` answers: the segment's first minimal-depth column, or column -1 when the segment is empty or all its samples are at or above `0xFFFFFFF` |
| `Depth.PointWithoutCandidateReadsColumnMinusOne` | src/depth_c.cpp:196-249 | for an existing object with no sample below the cap (an empty segment included), the point query returns the driver's point at column -1, not the sentinel |
| `Depth.ObjectSize` | src/depth_c.cpp:266-281 | -1 without a scanline or a valid index; otherwise the non-negative x distance between the points at columns `start` and `end` |
| `Depth.ObjectSizeCorrected` | src/depth_c.cpp:266-281 | the same query measured to the segment's last column `end - 1` |
| `Depth.CorrectedSizeReadsInsideImage` | src/depth_c.cpp:210-228 | in every reachable state the corrected size of a non-empty object reads an image row and two columns of its segment, all inside the image |
| `Depth.CorrectedSizeReadsOnlyTheObject` | src/depth_c.cpp:277-280 | the corrected size depends only on the points inside the object's own segment |
| `Depth.ObjectAngle` | src/depth_c.cpp:283-297 | no angle (-1) without a scanline or a valid index; otherwise the atan2 inputs Δz, Δx between columns `start` and `end` |
| `Depth.ObjectAngleCorrected` | src/depth_c.cpp:283-297 | the same query measured to the segment's last column |
| `Depth.CorrectedAngleReadsOnlyTheObject` | src/depth_c.cpp:294-297 | the corrected angle inputs depend only on the object's own points |
| `Depth.SizeAfterCloseIsZero` | src/depth_c.cpp:266-281 | after `depth_close` with a scanline set, count and point report no data but the size of an existing object is 0 |
| `Depth.QueriesBeforeScanline` | src/depth_c.cpp:230-292 | without a scanline the count, point, size and angle queries all return their sentinels |
| `Depth.FailedUpdateKeepsStaleImage` | src/depth_c.cpp:133-160 | a `depth_update` whose driver call throws returns 0, yet the previous image's size is still reported and its rows can still be scanned |
| `DepthExamples.TwoPlateauRowNearestFirst` | src/depth_c.cpp:210-249 | for depths 900,900,100,100 split at the jump, the near plateau becomes object 0 and its point is its first column |
| `DepthExamples.SizeReadsPastSegment` | src/depth_c.cpp:266-297 | on that row, as written, the far two-column object measures 20 (three columns) because it reads the near object's first column; the near object's size reads its `end`, column 4, which is outside the image |
| `DepthExamples.AngleReadsPastSegment` | src/depth_c.cpp:294-297 | on that row, as written, the flat far plateau gets Δz = -800 and Δx = 20, because its far end is the near object's first column |
| `DepthExamples.SizeCorrectedOnPlateaus` | src/depth_c.cpp:266-297 | on that row, the corrected sizes are 10 and the far plateau's corrected tilt has Δz = 0 |

## Left out

- `UsbInputProvider` and `DepthInputProvider` (src/camera.cpp:249-384) are left out: they do OpenCV/Qt capture, use the driver singleton and build the false-colour table. This is I/O and presentation. A frame source appears only as the `Option<Frame>` its `next` produced.
- `Device::open`, `isOpen`, `close`, `setWidth` and `setHeight` are left out: they only forward to the input provider.
- `Device::bgr` is left out: it copies the raw pixel buffer.
- `Device::setChannelImplManager` is left out. Replacing the manager deletes the impls that existing channels still point to, which a value model cannot express.
- `ConfigPath::defaultConfigPath` and `setDefaultConfigPath` are file I/O. The device constructor takes the result of `Config::load` as an argument.
- `Config` is an external class that is not part of this model. The model assumes it resolves a key relative to the current group path, and that a missing key reads as "" or 0. `CAMERA_GROUP`, `CAMERA_NUM_CHANNELS_KEY` and `CAMERA_CHANNEL_GROUP_PREFIX` come from a header that is not part of this model, so their values here are stand-ins.
- `Objects.Area`: `Rect<unsigned>::area()` comes from a header that is not part of this model. It is taken to be width × height in 32-bit unsigned arithmetic.
- `HsvChannelImpl` and `BarcodeChannelImpl` are not part of this model. Their `update` is represented only by the frame it ran on, and their `findObjects` by the `Detector` argument.
- The `Object` destructor and the accessors are not modelled as members. In the model objects are values, so a copy never shares or frees another object's payload. That is a property of the model, not a promise of the program.
- `Channels.SortByArea`: the model does not represent the element assignments `std::sort` performs at src/camera.cpp:178. Their effect on each object's payload depends on `Object::operator=`, which src/camera.cpp does not define and whose header is not part of this model. If that assignment is the implicit member-wise copy, a sorted object can be left pointing at the freed buffer of a temporary. The model states only the permutation and the order.
- `Sorting.Sort`: `std::sort` does not fix the order of equal keys. The model keeps equal keys in input order, but every contract states only the permutation and the order, which any `std::sort` result satisfies; `Sorting.SortedPermutationsHaveSameKeys` shows every such result has the same key sequence.
- Diagnostic output is not modelled: the `WARN` calls in `Channel`'s constructor (src/camera.cpp:142, 149) and the `std::cerr` messages of the depth queries and of `catchAllAndReturn` (src/depth_c.cpp:73-74, 213, 241, 245, 269, 273, 286, 290). Only the results the calls return are modelled.
- `depth_open`'s two-second retry loop is left out: it polls the wall clock.
- `get_depth_resolution` and `set_depth_resolution` are left out: they only forward to the driver.
- The `catchAllAndReturn` exception handling is not modelled. The driver's samples are total functions, so an exception the driver might raise for an out-of-range read is not represented. The null-image cases that the code turns into exceptions are modelled as the sentinel they produce, and so are a throwing `depthImage()` in `depth_update` and a throwing `close()` in `depth_close`. A throw from `DepthImage::setOrientation` inside `depth_update` (which would leave the new image installed without its orientation and return 0) is not represented.
- `DepthImage::setOrientation` is recorded on the image, but how orientation changes the samples is not modelled: that happens inside the driver.
- `ColinearSegmenter::findSegments` and `coalesceSegments` are not part of this model. They are one `Segmenter` argument, which promises only that every segment satisfies start ≤ end ≤ width.
- `Depth.ObjectAngle`: the numeric value of `atan2(Δz, Δx)` truncated to `int` is floating point, so the model returns the two integer inputs instead. As a consequence the model does not show that the -1 "no angle" sentinel collides with real tilts: any angle in (-2, -1] radians, such as Δz = -2 and Δx = 1 (-1.107), also truncates to -1.
- `Depth.ObjectSize`: world coordinates are unbounded integers, so a 32-bit overflow of `end.x - start.x`, or `abs(INT_MIN)`, is not modelled.
- `Depth.Middle`: the unsigned sum `start + end` is taken not to overflow.
- The `_x`, `_y` and `_z` projections of the world-point and object-point queries are not separate members: each is a field of the modelled point.
- `src/kovan_module_p.hpp` (UDP client), `src/servo_p.cpp` (floating-point PWM arithmetic and a command queue) and `src/i2c_p.cpp` (a foreign I²C wrapper) are outside the modelled core.

## Findings

| source | as written | input that shows it | evidently intended | confidence | as-written member | corrected member |
|---|---|---|---|---|---|---|
| src/depth_c.cpp:277-280 | the size is the x distance between the points at `segments[n].start` and `segments[n].end`, and `end` is the exclusive bound, so it is the first column of the next object or one past the image | row depths 900, 900, 100, 100 with x = 10 × column, split into [0,2) and [2,4): the far object's size reads column 2, inside the image, and comes out 20 instead of 10; the near object's size reads column 4, outside the 4-column image | measure to the last column of the segment, `end - 1` | medium, not executed | `DepthExamples.SizeReadsPastSegment` | `Depth.ObjectSizeCorrected` |
| src/depth_c.cpp:294-297 | the angle's atan2 inputs are taken between the points at `start` and `end`, with the same exclusive `end` | the same row: the flat far plateau gets Δz = -800 and Δx = 20 instead of 0 and 10 | take the far endpoint at `end - 1` | medium, not executed | `DepthExamples.AngleReadsPastSegment` | `Depth.ObjectAngleCorrected` |

=== FILE: basics.dfy ===
/** Small shared vocabulary: an optional value standing in for a nullable
    pointer, and the fixed-width integer types the C++ code uses. */
module Basics {

  /** A value that may be absent; `None` plays the part of a null pointer. */
  datatype Option<+T> = None | Some(value: T)

  /** `uint16_t`. */
  newtype uint16 = x: int | 0 <= x < 0x1_0000

  /** One byte of an object's payload (`char`, read as unsigned). */
  newtype byte = x: int | 0 <= x < 0x100
}

=== FILE: channel_impls.dfy ===
/** `ChannelImpl` and `DefaultChannelImplManager`: one shared detection
    engine per detector type, each remembering the last frame it was given
    and whether its per-frame preprocessing is stale.

    The detector-specific passes are not part of this model. The
    preprocessing pass `update(image)` is represented by the frame it last ran
    on (`prepared`), and `findObjects(config)` by a caller-supplied
    `Detector` applied to the impl's type name, that frame and the config.
    Two counters record how often each pass has run. */
module ChannelImpls {
  import opened Basics
  import opened Objects
  import opened Configs

  /** An opaque frame: an identity token and its dimensions. */
  datatype Frame = Frame(id: int, cols: nat, rows: nat)

  /** `cv::Mat::empty()`. */
  predicate Empty(f: Frame) {
    f.cols == 0 || f.rows == 0
  }

  /** `cv::Mat()`. */
  const Blank: Frame := Frame(0, 0, 0)

  /** `findObjects` of the impl registered under a type name, as a function
      of the frame its last `update` pass saw and of the channel's config. */
  type Detector = (string, Frame, Config) -> seq<Object>

  datatype Impl = Impl(
    kind: string,
    image: Frame,
    dirty: bool,
    prepared: Frame,
    updates: nat,
    finds: nat)

  /** A freshly constructed impl: dirty, holding no frame, no pass run yet. */
  function NewImpl(kind: string): (impl: Impl)
    ensures impl.kind == kind && impl.dirty && Empty(impl.image)
    ensures impl.updates == 0 && impl.finds == 0
  {
    Impl(kind, Blank, true, Blank, 0, 0)
  }

  /** The frame an impl keeps after `setImage(image)`. */
  function Stored(image: Frame): (f: Frame)
    ensures Empty(image) ==> f == Blank
    ensures !Empty(image) ==> f == image
  {
    if Empty(image) then Blank else image
  }

  /** `ChannelImpl::setImage`: always marks the impl dirty, whatever the
      frame; an empty frame also drops the stored one. Nothing else changes. */
  function SetImage(impl: Impl, image: Frame): (r: Impl)
    ensures r.dirty
    ensures Empty(image) ==> r.image == Blank
    ensures !Empty(image) ==> r.image == image
    ensures r.kind == impl.kind && r.prepared == impl.prepared
    ensures r.updates == impl.updates && r.finds == impl.finds
  {
    impl.(image := Stored(image), dirty := true)
  }

  /** An impl after a query together with the objects it found. */
  datatype Detection = Detection(impl: Impl, objects: seq<Object>)

  /** `ChannelImpl::objects(config)`: runs the preprocessing pass on the
      stored frame only when dirty and then clears the flag; always runs the
      detection pass with the given config on the preprocessed frame. */
  function ImplObjects(impl: Impl, config: Config, find: Detector): (r: Detection)
    ensures !r.impl.dirty
    ensures impl.dirty ==> r.impl.updates == impl.updates + 1 && r.impl.prepared == impl.image
    ensures !impl.dirty ==> r.impl.updates == impl.updates && r.impl.prepared == impl.prepared
    ensures r.impl.finds == impl.finds + 1
    ensures r.impl.kind == impl.kind && r.impl.image == impl.image
    ensures r.objects == find(impl.kind, r.impl.prepared, config)
  {
    var ready := if impl.dirty
                 then impl.(prepared := impl.image, updates := impl.updates + 1, dirty := false)
                 else impl;
    Detection(ready.(finds := ready.finds + 1), find(ready.kind, ready.prepared, config))
  }

  /** An impl after a run of queries, and what each query returned. */
  datatype Detections = Detections(impl: Impl, results: seq<seq<Object>>)

  /** Queries `impl` once per config, in order, as several channels of the
      same type do between two frames. */
  function QueryAll(impl: Impl, configs: seq<Config>, find: Detector): (r: Detections)
    ensures |r.results| == |configs|
    decreases |configs|
  {
    if |configs| == 0 then Detections(impl, [])
    else
      var first := ImplObjects(impl, configs[0], find);
      var rest := QueryAll(first.impl, configs[1..], find);
      Detections(rest.impl, [first.objects] + rest.results)
  }

  /** Once the preprocessing is current, further queries never rerun it: each
      one only runs the detection pass, with its own config. */
  lemma {:induction false} CleanQueriesDoNoUpdate(impl: Impl, configs: seq<Config>, find: Detector)
    requires !impl.dirty
    ensures var r := QueryAll(impl, configs, find);
      && !r.impl.dirty
      && r.impl.updates == impl.updates
      && r.impl.prepared == impl.prepared
      && r.impl.finds == impl.finds + |configs|
      && forall k | 0 <= k < |configs| :: r.results[k] == find(impl.kind, impl.prepared, configs[k])
    decreases |configs|
  {
    if |configs| > 0 {
      var first := ImplObjects(impl, configs[0], find);
      CleanQueriesDoNoUpdate(first.impl, configs[1..], find);
      var r := QueryAll(impl, configs, find);
      forall k | 0 <= k < |configs|
        ensures r.results[k] == find(impl.kind, impl.prepared, configs[k])
      {
        if k > 0 {
          assert configs[1..][k - 1] == configs[k];
        }
      }
    }
  }

  /** After one `setImage`, any number N >= 1 of queries run the
      preprocessing pass exactly once, on the frame just set, and the
      detection pass N times. This holds even when the frame is the one the
      impl already had and was clean for: `setImage` dirties unconditionally. */
  lemma OneUpdatePerDirtyCycle(impl: Impl, image: Frame, configs: seq<Config>, find: Detector)
    requires |configs| >= 1
    ensures var r := QueryAll(SetImage(impl, image), configs, find);
      && !r.impl.dirty
      && r.impl.updates == impl.updates + 1
      && r.impl.finds == impl.finds + |configs|
      && r.impl.prepared == Stored(image)
      && forall k | 0 <= k < |configs| :: r.results[k] == find(impl.kind, Stored(image), configs[k])
  {
    var dirty := SetImage(impl, image);
    var first := ImplObjects(dirty, configs[0], find);
    CleanQueriesDoNoUpdate(first.impl, configs[1..], find);
    var r := QueryAll(dirty, configs, find);
    forall k | 0 <= k < |configs|
      ensures r.results[k] == find(impl.kind, Stored(image), configs[k])
    {
      if k > 0 {
        assert configs[1..][k - 1] == configs[k];
      }
    }
  }

  /** The impl registry, keyed by detector type name. */
  datatype Manager = Manager(impls: map<string, Impl>)

  /** Each registered impl carries the name it is registered under. */
  predicate Registered(m: Manager) {
    forall name | name in m.impls :: m.impls[name].kind == name
  }

  /** `DefaultChannelImplManager()`: the colour-blob detector under "hsv" and
      the barcode detector under "qr", both freshly constructed. */
  function DefaultManager(): (m: Manager)
    ensures m.impls.Keys == {"hsv", "qr"}
    ensures Registered(m)
    ensures forall name | name in m.impls :: m.impls[name] == NewImpl(name)
  {
    Manager(map["hsv" := NewImpl("hsv"), "qr" := NewImpl("qr")])
  }

  /** `channelImpl(name)`: a handle to the impl registered under `name`, or
      null. The handle is the registry key. */
  function Lookup(m: Manager, name: string): (h: Option<string>)
    ensures h.Some? <==> name in m.impls
    ensures h.Some? ==> h.value == name
  {
    if name in m.impls then Some(name) else None
  }

  /** `DefaultChannelImplManager::setImage`: hands the frame to every
      registered impl, so all of them are dirty afterwards. */
  function Broadcast(m: Manager, image: Frame): (r: Manager)
    ensures r.impls.Keys == m.impls.Keys
    ensures forall name | name in r.impls :: r.impls[name] == SetImage(m.impls[name], image)
    ensures forall name | name in r.impls :: r.impls[name].dirty && r.impls[name].image == Stored(image)
    ensures Registered(m) ==> Registered(r)
  {
    Manager(map name | name in m.impls :: SetImage(m.impls[name], image))
  }
}

=== FILE: channels.dfy ===
/** `Camera::Channel`: one configured detector. It refers to the shared impl
    of its type (by registry name), owns a config, and caches the impl's
    objects sorted largest bounding box first behind a validity flag. A
    channel whose type is empty or unregistered has no impl at all and
    answers every query with the null sentinel, which is different from a
    valid empty list. */
module Channels {
  import opened Basics
  import opened Sorting
  import opened Objects
  import opened Configs
  import opened ChannelImpls

  /** The config key naming the detector type. */
  const TypeKey: string := "type"

  datatype Channel = Channel(
    config: Config,
    impl: Option<string>,
    valid: bool,
    cache: seq<Object>)

  /** `Channel(device, config)`: reads "type"; an empty type or one the
      device's manager (possibly null) does not know leaves the impl null.
      The channel starts invalid with an empty cache. */
  function NewChannel(manager: Option<Manager>, config: Config): (ch: Channel)
    ensures ch.config == config && !ch.valid && ch.cache == []
    ensures ch.impl.Some? <==>
      StringValue(config, TypeKey) != "" && manager.Some? && StringValue(config, TypeKey) in manager.value.impls
    ensures ch.impl.Some? ==> ch.impl.value == StringValue(config, TypeKey)
  {
    var kind := StringValue(config, TypeKey);
    var impl := if kind == "" || manager.None? then None else Lookup(manager.value, kind);
    Channel(config, impl, false, [])
  }

  /** `invalidate()`: clears the validity flag and nothing else; the stale
      list stays until the next recompute overwrites it. */
  function Invalidate(ch: Channel): (r: Channel)
    ensures !r.valid
    ensures r.config == ch.config && r.impl == ch.impl && r.cache == ch.cache
  {
    ch.(valid := false)
  }

  /** `setConfig(config)`: replaces the config and invalidates. The impl is
      not looked up again, so a changed "type" has no effect. */
  function SetConfig(ch: Channel, config: Config): (r: Channel)
    ensures !r.valid && r.config == config
    ensures r.impl == ch.impl && r.cache == ch.cache
  {
    Invalidate(ch.(config := config))
  }

  /** `LargestAreaFirst` ordering: bounding-box area never increases along
      the list. */
  predicate LargestAreaFirst(s: seq<Object>) {
    forall i, j | 0 <= i < j < |s| :: Area(s[i].boundingBox) >= Area(s[j].boundingBox)
  }

  /** `std::sort(..., LargestAreaFirst)`: a permutation of `s` in
      non-increasing area order. */
  function SortByArea(s: seq<Object>): (r: seq<Object>)
    ensures LargestAreaFirst(r)
    ensures multiset(r) == multiset(s)
  {
    var r := Sort(s, (o: Object) => -(Area(o.boundingBox) as int));
    assert forall i, j | 0 <= i < j < |r| :: -(Area(r[i].boundingBox) as int) <= -(Area(r[j].boundingBox) as int);
    r
  }

  /** The channel's impl handle, if any, names an impl of the manager. */
  predicate Resolved(ch: Channel, m: Manager) {
    ch.impl.Some? ==> ch.impl.value in m.impls
  }

  /** The channel's cache is always in `LargestAreaFirst` order. */
  predicate CacheOrdered(ch: Channel) {
    LargestAreaFirst(ch.cache)
  }

  /** A channel and the manager after a query, and the query's answer:
      `None` is the null pointer, `Some(list)` a pointer to the cache. */
  datatype Answer = Answer(channel: Channel, manager: Manager, objects: Option<seq<Object>>)

  /** `Channel::objects()`: null without an impl; the cached list while
      valid; otherwise asks the impl, sorts, caches and marks valid. Only the
      channel's own impl is touched. */
  function ChannelObjects(ch: Channel, m: Manager, find: Detector): (a: Answer)
    requires Resolved(ch, m)
    ensures a.objects.None? <==> ch.impl.None?
    ensures ch.impl.None? || ch.valid ==> a.channel == ch && a.manager == m
    ensures ch.impl.Some? ==> a.channel.valid && a.objects == Some(a.channel.cache)
    ensures a.channel.config == ch.config && a.channel.impl == ch.impl
    ensures ch.impl.Some? && !ch.valid ==>
      var d := ImplObjects(m.impls[ch.impl.value], ch.config, find);
      && a.manager == Manager(m.impls[ch.impl.value := d.impl])
      && multiset(a.channel.cache) == multiset(d.objects)
      && LargestAreaFirst(a.channel.cache)
    ensures a.manager.impls.Keys == m.impls.Keys
    ensures Resolved(a.channel, a.manager)
    ensures CacheOrdered(ch) ==> CacheOrdered(a.channel)
  {
    if ch.impl.None? then Answer(ch, m, None)
    else if ch.valid then Answer(ch, m, Some(ch.cache))
    else
      var name := ch.impl.value;
      var d := ImplObjects(m.impls[name], ch.config, find);
      var sorted := SortByArea(d.objects);
      Answer(ch.(cache := sorted, valid := true), Manager(m.impls[name := d.impl]), Some(sorted))
  }

  /** The null sentinel comes back exactly when the type is empty or not
      registered: a registered type always answers with a list, possibly an
      empty one. */
  lemma NullExactlyWhenUnresolved(m: Manager, config: Config, find: Detector)
    ensures var kind := StringValue(config, TypeKey);
      ChannelObjects(NewChannel(Some(m), config), m, find).objects.None? <==>
        kind == "" || kind !in m.impls
  {
  }

  /** A second query with no `invalidate` / `setConfig` in between neither
      asks the impl nor changes anything, and returns the same list. */
  lemma SecondQueryIsCached(ch: Channel, m: Manager, find: Detector)
    requires Resolved(ch, m)
    ensures var first := ChannelObjects(ch, m, find);
      var second := ChannelObjects(first.channel, first.manager, find);
      && second.objects == first.objects
      && second.channel == first.channel
      && second.manager == first.manager
  {
  }

  /** After `setConfig` the next query asks the same impl with the new
      config: the change of config is seen, the change of "type" is not. */
  lemma SetConfigThenQueryUsesNewConfig(ch: Channel, m: Manager, config: Config, find: Detector)
    requires Resolved(ch, m) && ch.impl.Some?
    ensures var a := ChannelObjects(SetConfig(ch, config), m, find);
      && a.channel.impl == ch.impl
      && a.objects.Some?
      && multiset(a.objects.value) == multiset(ImplObjects(m.impls[ch.impl.value], config, find).objects)
  {
  }
}

=== FILE: config_paths.dfy ===
/** `Camera::ConfigPath`: where channel configuration files live. The
    process-wide base directory `s_path` is passed around explicitly. */
module ConfigPaths {

  /** The base directory before any `setBasePath`. */
  const InitialBasePath: string := "/etc/botui/channels/"

  /** `extension()`. */
  const Extension: string := "conf"

  /** The name of the file that records which configuration is the default. */
  const DefaultName: string := "default"

  /** `setBasePath`: the new base is `path`, with a '/' appended when it is
      non-empty and does not already end in one. */
  function SetBasePath(path: string): (base: string)
    ensures path == [] <==> base == []
    ensures base != [] ==> base[|base| - 1] == '/'
    ensures base == path || base == path + "/"
    ensures path != [] && path[|path| - 1] == '/' ==> base == path
  {
    if path == [] then path
    else if path[|path| - 1] != '/' then path + "/"
    else path
  }

  /** Setting the base path twice is the same as setting it once. */
  lemma SetBasePathIdempotent(path: string)
    ensures SetBasePath(SetBasePath(path)) == SetBasePath(path)
  {
  }

  /** The initial base already ends in '/', so `setBasePath` keeps it, and
      the default-configuration record lives next to the channel files. */
  lemma InitialBasePathIsKept()
    ensures SetBasePath(InitialBasePath) == InitialBasePath
    ensures DefaultPath(InitialBasePath) == "/etc/botui/channels/default"
  {
  }

  /** `path(name)`: the base itself for an empty name, otherwise
      `<base><name>.conf`. */
  function Path(base: string, name: string): (p: string)
    ensures name == [] ==> p == base
    ensures |base| <= |p| && p[..|base|] == base
    ensures name != [] ==> |p| == |base| + |name| + 1 + |Extension|
    ensures name != [] ==> p[|base|..|base| + |name|] == name
    ensures name != [] ==> p[|base| + |name|..] == "." + Extension
  {
    if name == [] then base else base + name + "." + Extension
  }

  /** Recovers the name from a configuration file path under `base`. */
  function NameOf(base: string, p: string): string
    requires |base| <= |p|
  {
    if |p| == |base| then [] else if |p| < |base| + 1 + |Extension| then [] else p[|base|..|p| - 1 - |Extension|]
  }

  /** `path` loses nothing: the name can be read back from the path, so
      distinct names give distinct files. */
  lemma PathRoundTrip(base: string, name: string)
    ensures NameOf(base, Path(base, name)) == name
  {
  }

  lemma PathInjective(base: string, name1: string, name2: string)
    requires Path(base, name1) == Path(base, name2)
    ensures name1 == name2
  {
  }

  /** `defaultPath()`: `<base>default`. */
  function DefaultPath(base: string): (p: string)
    ensures |p| == |base| + |DefaultName|
    ensures p[..|base|] == base && p[|base|..] == DefaultName
  {
    base + DefaultName
  }

  /** The file recording the default never coincides with a channel configuration
      file, whatever the name: it carries no ".conf" extension. */
  lemma DefaultPathIsNoConfigPath(base: string, name: string)
    ensures DefaultPath(base) != Path(base, name)
  {
    var d, p := DefaultPath(base), Path(base, name);
    if name != [] && |d| == |p| {
      assert d[|d| - 5] == DefaultName[2] == 'f';
      assert p[|p| - 5] == '.';
    }
  }
}

=== FILE: configs.dfy ===
/** The external `Config` store as far as the core reads it: string and int
    values under hierarchical group paths, and a current group that
    `beginGroup` / `endGroup` / `clearGroup` move. A key that is absent, or
    holds the other kind of value, reads as the empty string or as 0. */
module Configs {

  datatype Value = Str(text: string) | Int(number: int)

  /** `values` is keyed by the full path of group names followed by the key;
      `group` is the path the next lookup is relative to. */
  datatype Config = Config(values: map<seq<string>, Value>, group: seq<string>)

  function BeginGroup(c: Config, name: string): Config {
    c.(group := c.group + [name])
  }

  function EndGroup(c: Config): Config {
    if |c.group| == 0 then c else c.(group := c.group[..|c.group| - 1])
  }

  function ClearGroup(c: Config): Config {
    c.(group := [])
  }

  function StringValue(c: Config, key: string): string {
    var path := c.group + [key];
    if path in c.values && c.values[path].Str? then c.values[path].text else ""
  }

  function IntValue(c: Config, key: string): int {
    var path := c.group + [key];
    if path in c.values && c.values[path].Int? then c.values[path].number else 0
  }
}

=== FILE: depth.dfy ===
/** The depth scanline query surface of `depth_c.cpp`. The module-wide
    globals `_depth_image`, `_orientation`, `scanRow` and `segments` become
    one `State` value that every call takes and, when it changes anything,
    returns. The driver's depth image is an abstract record whose samples are
    total functions of (row, column): what the driver answers outside the
    image is left unconstrained. The row segmenter (`ColinearSegmenter` and
    `coalesceSegments`) is a parameter promising only that its segments lie
    within the row. */
module Depth {
  import opened Basics
  import opened Sorting

  /** A world point in the sensor's coordinates. */
  datatype Point3 = Point3(x: int, y: int, z: int)

  /** `create_point3(-1, -1, -1)`, the "no data" answer. */
  const NoPoint: Point3 := Point3(-1, -1, -1)

  /** The driver's image: its size, the orientation correction last applied
      to it, and its raw depth and world-point samples. */
  datatype DepthImage = DepthImage(
    width: nat,
    height: nat,
    orientation: uint16,
    depthAt: (int, int) -> int,
    pointAt: (int, int) -> Point3)

  /** The half-open column range `[start, end)` of one object in the row. */
  datatype Segment = Segment(start: nat, end: nat)

  /** Every segment lies within a row of `width` columns. */
  predicate Fits(segments: seq<Segment>, width: nat) {
    forall k | 0 <= k < |segments| :: segments[k].start <= segments[k].end <= width
  }

  /** The tolerance the row segmenter is built with: `ColinearSegmenter(5)`. */
  const SegmenterTolerance: int := 5

  /** `coalesceSegments(ColinearSegmenter(tolerance).findSegments(row, n))`
      for a row of `n` samples. */
  type Segmenter = f: (int, seq<int>) -> seq<Segment>
    | forall tolerance, row :: Fits(f(tolerance, row), |row|)
    witness (tolerance: int, row: seq<int>) => []

  datatype State = State(
    image: Option<DepthImage>,
    orientation: uint16,
    scanRow: int,
    segments: seq<Segment>)

  /** The globals before any call. */
  const Initial: State := State(None, 0, -1, [])

  /** What every reachable state satisfies: no scanline means no segments,
      and a scanline of the current image is one of its rows, split into
      segments that fit its width. */
  predicate Valid(s: State) {
    && s.scanRow >= -1
    && (s.scanRow < 0 ==> s.segments == [])
    && (s.scanRow >= 0 && s.image.Some? ==>
          s.scanRow < s.image.value.height && Fits(s.segments, s.image.value.width))
  }

  lemma InitialValid()
    ensures Valid(Initial)
  {
  }

  /** A state after a call together with the call's integer result. */
  datatype Step = Step(state: State, code: int)

  /** `depth_close()`, given whether the driver's `close()` returned
      normally: the image is dropped before the driver is called, so it is
      null on both paths; the result is 1, or 0 when the driver threw. The
      scanline and its segments are kept. */
  function Close(s: State, driverCloses: bool): (r: Step)
    ensures r.code == (if driverCloses then 1 else 0)
    ensures r.state.image.None?
    ensures r.state.orientation == s.orientation
    ensures r.state.scanRow == s.scanRow && r.state.segments == s.segments
    ensures Valid(s) ==> Valid(r.state)
  {
    Step(s.(image := None), if driverCloses then 1 else 0)
  }

  /** `set_depth_orientation` / `get_depth_orientation`. */
  function SetOrientation(s: State, orientation: uint16): (r: Step)
    ensures r.code == 1 && r.state.orientation == orientation
    ensures r.state.image == s.image && r.state.scanRow == s.scanRow && r.state.segments == s.segments
    ensures Valid(s) ==> Valid(r.state)
  {
    Step(s.(orientation := orientation), 1)
  }

  function GetOrientation(s: State): (o: int)
    ensures 0 <= o < 0x1_0000 && o == s.orientation as int
  {
    s.orientation as int
  }

  /** The orientation read back is the one last set. */
  lemma OrientationRoundTrip(s: State, orientation: uint16)
    ensures GetOrientation(SetOrientation(s, orientation).state) == orientation as int
  {
  }

  /** What the driver's `depthImage()` did: threw, returned null, or
      returned an image. */
  datatype DriverImage = Failed | NoImage | Image(image: DepthImage)

  /** `depth_update()`, given the driver's answer: always discards the
      scanline and its segments first. When the driver throws, the image
      global is never reassigned, so the previous image stays and the result
      is 0; a null answer leaves the image null and also reports 0; an image
      gets the stored orientation and the result is 1. */
  function Update(s: State, driver: DriverImage): (r: Step)
    ensures r.state.scanRow == -1 && r.state.segments == []
    ensures r.state.orientation == s.orientation
    ensures r.code == 0 <==> !driver.Image?
    ensures r.code == 0 || r.code == 1
    ensures driver.Failed? ==> r.state.image == s.image
    ensures driver.NoImage? ==> r.state.image.None?
    ensures driver.Image? ==> r.state.image == Some(driver.image.(orientation := s.orientation))
    ensures Valid(r.state)
  {
    var cleared := s.(segments := [], scanRow := -1);
    match driver
    case Failed => Step(cleared, 0)
    case NoImage => Step(cleared.(image := None), 0)
    case Image(img) => Step(cleared.(image := Some(img.(orientation := s.orientation))), 1)
  }

  /** An orientation set before `depth_update` is the one the new image gets. */
  lemma OrientationAppliedOnUpdate(s: State, orientation: uint16, driverImage: DepthImage)
    ensures var u := Update(SetOrientation(s, orientation).state, Image(driverImage)).state;
      u.image.Some? && u.image.value.orientation == orientation
  {
  }

  /** `get_depth_image_height()` / `get_depth_image_width()`: 0 without an
      image. */
  function ImageHeight(s: State): (h: nat)
    ensures s.image.None? ==> h == 0
    ensures s.image.Some? ==> h == s.image.value.height
  {
    if s.image.None? then 0 else s.image.value.height
  }

  function ImageWidth(s: State): (w: nat)
    ensures s.image.None? ==> w == 0
    ensures s.image.Some? ==> w == s.image.value.width
  {
    if s.image.None? then 0 else s.image.value.width
  }

  /** `get_depth_value(row, column)`: -1 without an image. */
  function DepthValue(s: State, row: int, column: int): (v: int)
    ensures s.image.None? ==> v == -1
    ensures s.image.Some? ==> v == s.image.value.depthAt(row, column)
  {
    if s.image.None? then -1 else s.image.value.depthAt(row, column)
  }

  /** `get_depth_world_point(row, column)`: the sentinel without an image. */
  function WorldPoint(s: State, row: int, column: int): (p: Point3)
    ensures s.image.None? ==> p == NoPoint
    ensures s.image.Some? ==> p == s.image.value.pointAt(row, column)
  {
    if s.image.None? then NoPoint else s.image.value.pointAt(row, column)
  }

  /** After `depth_close` nothing can be read: the depth value is -1, the
      size is 0 x 0 and no row can be scanned. */
  lemma NothingReadableAfterClose(s: State, driverCloses: bool, row: int, column: int, segmenter: Segmenter)
    ensures var c := Close(s, driverCloses).state;
      && DepthValue(c, row, column) == -1
      && WorldPoint(c, row, column) == NoPoint
      && ImageWidth(c) == 0 && ImageHeight(c) == 0
      && ScanlineUpdate(c, row, segmenter) == Step(c, 0)
  {
  }

  /** The start value of `findMin`'s running minimum; samples at or above it
      are never picked. */
  const MinCap: int := 0xFFF_FFFF

  /** Column `c` is the first of the columns of `seg` with the smallest depth
      in row `row`, and that depth is below `MinCap`. */
  predicate IsFirstMinimum(img: DepthImage, row: int, seg: Segment, c: int) {
    && seg.start <= c < seg.end
    && img.depthAt(row, c) < MinCap
    && (forall j | seg.start <= j < seg.end :: img.depthAt(row, c) <= img.depthAt(row, j))
    && (forall j | seg.start <= j < c :: img.depthAt(row, c) < img.depthAt(row, j))
  }

  /** No column of `seg` has a depth below `MinCap`, in particular when the
      segment is empty. */
  predicate NoCandidate(img: DepthImage, row: int, seg: Segment) {
    forall j | seg.start <= j < seg.end :: img.depthAt(row, j) >= MinCap
  }

  /** `findMin`'s loop state after the columns `[seg.start, i)`. */
  predicate MinSoFar(img: DepthImage, row: int, seg: Segment, i: int, min: int, minVal: int) {
    && seg.start <= i
    && (min == -1 ==> minVal == MinCap && forall j | seg.start <= j < i :: img.depthAt(row, j) >= MinCap)
    && (min != -1 ==>
          && seg.start <= min < i
          && minVal == img.depthAt(row, min)
          && minVal < MinCap
          && (forall j | seg.start <= j < i :: minVal <= img.depthAt(row, j))
          && (forall j | seg.start <= j < min :: minVal < img.depthAt(row, j)))
  }

  /** The remaining iterations of `findMin`'s loop from column `i`. */
  function ScanMin(img: DepthImage, row: int, seg: Segment, i: int, min: int, minVal: int): (r: int)
    requires MinSoFar(img, row, seg, i, min, minVal)
    requires i <= seg.end || i == seg.start
    ensures r == -1 <==> NoCandidate(img, row, seg)
    ensures r != -1 ==> IsFirstMinimum(img, row, seg, r)
    decreases seg.end - i
  {
    if i >= seg.end then min
    else if img.depthAt(row, i) < minVal then ScanMin(img, row, seg, i + 1, i, img.depthAt(row, i))
    else ScanMin(img, row, seg, i + 1, min, minVal)
  }

  /** `findMin(seg)`: -1 before any scanline; otherwise the first column of
      the segment with the smallest depth below `MinCap`, or -1 when there is
      none (always so for an empty segment). */
  function FindMin(img: DepthImage, scanRow: int, seg: Segment): (r: int)
    ensures scanRow < 0 ==> r == -1
    ensures scanRow >= 0 ==> (r == -1 <==> NoCandidate(img, scanRow, seg))
    ensures r != -1 ==> IsFirstMinimum(img, scanRow, seg, r)
  {
    if scanRow < 0 then -1
    else ScanMin(img, scanRow, seg, seg.start, -1, MinCap)
  }

  /** The column `SegmentSizeFunctor` orders a segment by. */
  function Middle(seg: Segment): (m: nat)
    ensures seg.start <= seg.end ==> seg.start <= m <= seg.end
    ensures seg.start < seg.end ==> m < seg.end
  {
    (seg.start + seg.end) / 2
  }

  /** The z of the world point at the segment's middle column. */
  function MiddleDepth(img: DepthImage, row: int, seg: Segment): int {
    img.pointAt(row, Middle(seg)).z
  }

  /** Segments in the order `SegmentSizeFunctor` sorts them: non-decreasing
      z at the middle column, nearest first. */
  predicate NearestFirst(img: DepthImage, row: int, segments: seq<Segment>) {
    forall i, j | 0 <= i < j < |segments| :: MiddleDepth(img, row, segments[i]) <= MiddleDepth(img, row, segments[j])
  }

  /** The samples of one row as `depth_scanline_update` copies them. */
  function RowSamples(s: State, row: int): (data: seq<int>)
    ensures |data| == ImageWidth(s)
    ensures forall i | 0 <= i < |data| :: data[i] == DepthValue(s, row, i)
  {
    seq(ImageWidth(s), (i: int) => DepthValue(s, row, i))
  }

  /** `std::sort(..., SegmentSizeFunctor(row, image))`. */
  function SortNearestFirst(img: DepthImage, row: int, segments: seq<Segment>): (r: seq<Segment>)
    ensures NearestFirst(img, row, r)
    ensures multiset(r) == multiset(segments)
  {
    Sort(segments, (seg: Segment) => MiddleDepth(img, row, seg))
  }

  /** A permutation of segments that fit a row fits it too. */
  lemma PermutationFits(a: seq<Segment>, b: seq<Segment>, width: nat)
    requires multiset(a) == multiset(b) && Fits(b, width)
    ensures Fits(a, width)
  {
    forall k | 0 <= k < |a|
      ensures a[k].start <= a[k].end <= width
    {
      assert a[k] in multiset(b);
    }
  }

  /** `depth_scanline_update(row)`: a row outside `[0, height)` is rejected
      with 0 and changes nothing. Otherwise the row becomes the scanline and
      its segments replace the old ones, nearest first by middle-column z,
      and the result is 1. */
  function ScanlineUpdate(s: State, row: int, segmenter: Segmenter): (r: Step)
    ensures row < 0 || row >= ImageHeight(s) ==> r == Step(s, 0)
    ensures 0 <= row < ImageHeight(s) ==>
      && r.code == 1
      && r.state.scanRow == row
      && r.state.image == s.image && r.state.orientation == s.orientation
      && multiset(r.state.segments) == multiset(segmenter(SegmenterTolerance, RowSamples(s, row)))
      && NearestFirst(s.image.value, row, r.state.segments)
    ensures Valid(s) ==> Valid(r.state)
  {
    if row < 0 || row >= ImageHeight(s) then Step(s, 0)
    else
      var img := s.image.value;
      var found := segmenter(SegmenterTolerance, RowSamples(s, row));
      var sorted := SortNearestFirst(img, row, found);
      PermutationFits(sorted, found, img.width);
      Step(s.(scanRow := row, segments := sorted), 1)
  }

  /** `get_depth_scanline_object_count()`: -1 without an image or a
      scanline, otherwise the number of segments. */
  function ObjectCount(s: State): (n: int)
    ensures n == -1 <==> s.image.None? || s.scanRow < 0
    ensures n != -1 ==> n == |s.segments|
  {
    if s.image.None? then -1
    else if s.scanRow < 0 then -1
    else |s.segments|
  }

  /** Object `n` exists in the current scanline. */
  predicate HasObject(s: State, n: int) {
    s.scanRow >= 0 && 0 <= n < |s.segments|
  }

  /** `get_depth_scanline_object_point(n)`: the sentinel without an image, a
      scanline or object `n`; otherwise the world point of the object's
      nearest column as `findMin` picks it. */
  function ObjectPoint(s: State, n: int): (p: Point3)
    ensures s.image.None? || !HasObject(s, n) ==> p == NoPoint
    ensures s.image.Some? && HasObject(s, n) ==>
      var img, seg := s.image.value, s.segments[n];
      var c := FindMin(img, s.scanRow, seg);
      && p == img.pointAt(s.scanRow, c)
      && (c == -1 <==> NoCandidate(img, s.scanRow, seg))
      && (c != -1 ==> IsFirstMinimum(img, s.scanRow, seg, c))
  {
    if s.image.None? then NoPoint
    else if s.scanRow < 0 then NoPoint
    else if n < 0 || n >= |s.segments| then NoPoint
    else WorldPoint(s, s.scanRow, FindMin(s.image.value, s.scanRow, s.segments[n]))
  }

  function Abs(v: int): (a: nat)
    ensures a == v || a == -v
  {
    if v < 0 then -v else v
  }

  /** `get_depth_scanline_object_size(n)` as written: -1 without a scanline
      or object `n`; otherwise the distance in x between the world points at
      columns `start` and `end` of the segment. Column `end` is the first
      column after the segment. There is no image check of its own: without
      an image both points are the sentinel. */
  function ObjectSize(s: State, n: int): (size: int)
    ensures !HasObject(s, n) ==> size == -1
    ensures HasObject(s, n) ==> size >= 0
    ensures HasObject(s, n) ==>
      size == Abs(WorldPoint(s, s.scanRow, s.segments[n].end).x - WorldPoint(s, s.scanRow, s.segments[n].start).x)
  {
    if s.scanRow < 0 then -1
    else if n < 0 || n >= |s.segments| then -1
    else
      var start := WorldPoint(s, s.scanRow, s.segments[n].start);
      var end := WorldPoint(s, s.scanRow, s.segments[n].end);
      Abs(end.x - start.x)
  }

  /** The last column of a segment, where the size and angle queries should
      read its far endpoint. */
  function LastColumn(seg: Segment): (c: nat)
    ensures seg.start < seg.end ==> seg.start <= c < seg.end
  {
    if seg.start < seg.end then seg.end - 1 else seg.start
  }

  /** The size query measured between the segment's first and last column. */
  function ObjectSizeCorrected(s: State, n: int): (size: int)
    ensures !HasObject(s, n) ==> size == -1
    ensures HasObject(s, n) ==> size >= 0
    ensures HasObject(s, n) ==>
      size == Abs(WorldPoint(s, s.scanRow, LastColumn(s.segments[n])).x - WorldPoint(s, s.scanRow, s.segments[n].start).x)
  {
    if s.scanRow < 0 then -1
    else if n < 0 || n >= |s.segments| then -1
    else
      var start := WorldPoint(s, s.scanRow, s.segments[n].start);
      var last := WorldPoint(s, s.scanRow, LastColumn(s.segments[n]));
      Abs(last.x - start.x)
  }

  /** In a valid state the corrected size of a non-empty object reads only
      pixels of the current image: its row is an image row and both columns
      it reads lie inside the segment, below the image width. */
  lemma CorrectedSizeReadsInsideImage(s: State, n: int)
    requires Valid(s) && s.image.Some? && HasObject(s, n)
    requires s.segments[n].start < s.segments[n].end
    ensures 0 <= s.scanRow < s.image.value.height
    ensures s.segments[n].start <= LastColumn(s.segments[n]) < s.segments[n].end <= s.image.value.width
  {
  }

  /** Two images that agree on the world points of one segment's columns. */
  predicate SameSegmentPoints(a: DepthImage, b: DepthImage, row: int, seg: Segment) {
    forall c | seg.start <= c < seg.end :: a.pointAt(row, c) == b.pointAt(row, c)
  }

  /** The corrected size of an object depends only on the object's own
      columns: images that agree there give the same size. */
  lemma CorrectedSizeReadsOnlyTheObject(s: State, img: DepthImage, n: int)
    requires s.image.Some? && HasObject(s, n)
    requires SameSegmentPoints(s.image.value, img, s.scanRow, s.segments[n])
    ensures ObjectSizeCorrected(s.(image := Some(img)), n) == ObjectSizeCorrected(s, n)
  {
  }

  /** The inputs of `atan2` in `get_depth_scanline_object_angle(n)`, or the
      -1 answer when there is no scanline or no object `n`. */
  datatype Tilt = NoTilt | Tilt(dz: int, dx: int)

  /** The angle query as written: same preconditions and the same columns
      `start` and `end` as the size query. */
  function ObjectAngle(s: State, n: int): (t: Tilt)
    ensures t.NoTilt? <==> !HasObject(s, n)
    ensures t.Tilt? ==>
      var start := WorldPoint(s, s.scanRow, s.segments[n].start);
      var end := WorldPoint(s, s.scanRow, s.segments[n].end);
      t.dz == end.z - start.z && t.dx == end.x - start.x
  {
    if s.scanRow < 0 then NoTilt
    else if n < 0 || n >= |s.segments| then NoTilt
    else
      var start := WorldPoint(s, s.scanRow, s.segments[n].start);
      var end := WorldPoint(s, s.scanRow, s.segments[n].end);
      Tilt(end.z - start.z, end.x - start.x)
  }

  /** The angle query measured between the segment's first and last column. */
  function ObjectAngleCorrected(s: State, n: int): (t: Tilt)
    ensures t.NoTilt? <==> !HasObject(s, n)
    ensures t.Tilt? ==>
      var start := WorldPoint(s, s.scanRow, s.segments[n].start);
      var last := WorldPoint(s, s.scanRow, LastColumn(s.segments[n]));
      t.dz == last.z - start.z && t.dx == last.x - start.x
  {
    if s.scanRow < 0 then NoTilt
    else if n < 0 || n >= |s.segments| then NoTilt
    else
      var start := WorldPoint(s, s.scanRow, s.segments[n].start);
      var last := WorldPoint(s, s.scanRow, LastColumn(s.segments[n]));
      Tilt(last.z - start.z, last.x - start.x)
  }

  /** The corrected angle of an object depends only on its own columns. */
  lemma CorrectedAngleReadsOnlyTheObject(s: State, img: DepthImage, n: int)
    requires s.image.Some? && HasObject(s, n)
    requires SameSegmentPoints(s.image.value, img, s.scanRow, s.segments[n])
    ensures ObjectAngleCorrected(s.(image := Some(img)), n) == ObjectAngleCorrected(s, n)
  {
  }

  /** After `depth_close` with a scanline still set, the count and the point
      report "no data" but the size of an existing object is 0, not -1: the
      size query checks only the scanline and the index. */
  lemma SizeAfterCloseIsZero(s: State, driverCloses: bool, n: int)
    requires HasObject(s, n)
    ensures var c := Close(s, driverCloses).state;
      ObjectCount(c) == -1 && ObjectPoint(c, n) == NoPoint && ObjectSize(c, n) == 0
  {
  }

  /** An object whose segment is empty, or whose samples all lie at or
      above `MinCap`, has no minimal column: `findMin` answers -1 and the
      point query reads the driver's point at column -1 rather than
      reporting "no data". */
  lemma PointWithoutCandidateReadsColumnMinusOne(s: State, n: int)
    requires s.image.Some? && HasObject(s, n)
    requires NoCandidate(s.image.value, s.scanRow, s.segments[n])
    ensures ObjectPoint(s, n) == s.image.value.pointAt(s.scanRow, -1)
  {
  }

  /** Before any scanline every object query reports "no data". */
  lemma QueriesBeforeScanline(s: State, n: int)
    requires s.scanRow < 0
    ensures ObjectCount(s) == -1 && ObjectPoint(s, n) == NoPoint
    ensures ObjectSize(s, n) == -1 && ObjectAngle(s, n) == NoTilt
  {
  }

  /** A `depth_update` whose driver call throws still reports 0, but the
      previous image stays installed: its size is still reported and its
      rows can still be scanned. */
  lemma FailedUpdateKeepsStaleImage(s: State, row: int, segmenter: Segmenter)
    ensures var u := Update(s, Failed);
      && u.code == 0
      && ImageHeight(u.state) == ImageHeight(s) && ImageWidth(u.state) == ImageWidth(s)
      && (0 <= row < ImageHeight(s) ==> ScanlineUpdate(u.state, row, segmenter).code == 1)
  {
  }
}

=== FILE: depth_examples.dfy ===
/** A concrete four-column row: a far plateau (depth 900) in columns 0-1 and
    a near one (depth 100) in columns 2-3, with world x growing by 10 per
    column. The segmenter splits it at the jump, in column order. */
module DepthExamples {
  import opened Basics
  import opened Depth

  function PlateauDepth(row: int, column: int): int {
    if column < 2 then 900 else 100
  }

  function PlateauPoint(row: int, column: int): Point3 {
    Point3(10 * column, 0, PlateauDepth(row, column))
  }

  const Plateaus: DepthImage := DepthImage(4, 1, 0, PlateauDepth, PlateauPoint)

  const SplitAtJump: Segmenter :=
    (tolerance: int, row: seq<int>) => if |row| == 4 then [Segment(0, 2), Segment(2, 4)] else []

  /** The state after `depth_update` delivered `Plateaus` and row 0 was
      scanned. */
  function Scanned(): State {
    ScanlineUpdate(Update(Initial, Image(Plateaus)).state, 0, SplitAtJump).state
  }

  /** The near plateau is reported as object 0 and its point is its first
      column, even though the segmenter listed it second. */
  lemma TwoPlateauRowNearestFirst()
    ensures Scanned().segments == [Segment(2, 4), Segment(0, 2)]
    ensures ObjectCount(Scanned()) == 2
    ensures ObjectPoint(Scanned(), 0) == Point3(20, 0, 100)
    ensures ObjectPoint(Scanned(), 1) == Point3(0, 0, 900)
  {
  }

  /** As written, each object's size runs to the column after it: the far
      object's size takes in the near object's first column, column 2, and
      comes out as 20, the width of three columns. The near object's size
      reads its `end`, column 4, outside the four-column image, where the
      driver's answer is not known. */
  lemma SizeReadsPastSegment()
    ensures ObjectSize(Scanned(), 1) == 20
    ensures Scanned().segments[0].end == Plateaus.width
  {
  }

  /** As written, the far plateau's tilt is taken towards the near object's
      first column, so the flat surface comes out with a drop of 800. */
  lemma AngleReadsPastSegment()
    ensures ObjectAngle(Scanned(), 1) == Tilt(-800, 20)
  {
  }

  /** Measured between first and last column, each two-column object is 10
      wide and the far plateau is flat. */
  lemma SizeCorrectedOnPlateaus()
    ensures ObjectSizeCorrected(Scanned(), 0) == 10
    ensures ObjectSizeCorrected(Scanned(), 1) == 10
    ensures ObjectAngleCorrected(Scanned(), 1) == Tilt(0, 10)
  {
  }
}

=== FILE: devices.dfy ===
/** `Camera::Device`: owns the frame source (represented by the result of its
    `next` call), the impl manager, the current frame, the config and the
    channels, and drives the update cycle: a new frame dirties every impl and
    invalidates every channel; channel queries then recompute lazily. */
module Devices {
  import opened Basics
  import opened Objects
  import opened Configs
  import opened ChannelImpls
  import opened Channels

  /** Config names of the camera section, its channel count and the prefix
      of each channel's group. The header that defines them is not part of
      this model; the proofs do not depend on their values. */
  const CameraGroup: string := "camera"
  const NumChannelsKey: string := "num_channels"
  const ChannelGroupPrefix: string := "channel_"

  /** `m_image(320, 240, CV_8UC3)`: OpenCV takes rows first, so the initial
      frame has 320 rows and 240 columns. */
  const InitialImage: Frame := Frame(0, 240, 320)

  datatype Device = Device(
    image: Frame,
    manager: Manager,
    channels: seq<Channel>,
    config: Config)

  /** Every channel's impl handle is registered with the device's manager,
      each impl carries its own name, and every cache is in area order. */
  predicate Valid(d: Device) {
    && Registered(d.manager)
    && forall i | 0 <= i < |d.channels| :: Resolved(d.channels[i], d.manager) && CacheOrdered(d.channels[i])
  }

  /** `width()` / `height()`: the current frame's size, 0 for an empty frame. */
  function Width(d: Device): (w: nat)
    ensures Empty(d.image) ==> w == 0
    ensures !Empty(d.image) ==> w == d.image.cols
  {
    if Empty(d.image) then 0 else d.image.cols
  }

  function Height(d: Device): (h: nat)
    ensures Empty(d.image) ==> h == 0
    ensures !Empty(d.image) ==> h == d.image.rows
  {
    if Empty(d.image) then 0 else d.image.rows
  }

  /** Decimal digits of `n`, as `stream << i` writes them. */
  function Decimal(n: nat): (s: string)
    ensures |s| >= 1
    ensures forall k | 0 <= k < |s| :: '0' <= s[k] <= '9'
  {
    var digit := ['0' + (n % 10) as char];
    if n < 10 then digit else Decimal(n / 10) + digit
  }

  /** The number a string of decimal digits denotes. */
  function DigitsValue(s: string): nat
    requires forall k | 0 <= k < |s| :: '0' <= s[k] <= '9'
  {
    if |s| == 0 then 0
    else DigitsValue(s[..|s| - 1]) * 10 + (s[|s| - 1] - '0') as nat
  }

  /** `Decimal` writes `n` itself: reading its digits back gives `n`. */
  lemma {:induction false} DecimalRoundTrip(n: nat)
    ensures DigitsValue(Decimal(n)) == n
  {
    var s := Decimal(n);
    assert s[..|s| - 1] == if n < 10 then [] else Decimal(n / 10);
    if n >= 10 {
      DecimalRoundTrip(n / 10);
    }
  }

  /** Different channel indices get different config groups. */
  lemma ChannelGroupsDistinct(i: nat, j: nat)
    requires i != j
    ensures ChannelGroupPrefix + Decimal(i) != ChannelGroupPrefix + Decimal(j)
  {
    DecimalRoundTrip(i);
    DecimalRoundTrip(j);
    var p := |ChannelGroupPrefix|;
    assert (ChannelGroupPrefix + Decimal(i))[p..] == Decimal(i);
    assert (ChannelGroupPrefix + Decimal(j))[p..] == Decimal(j);
  }

  /** The config section the device reads, and the group of channel `i`. */
  function CameraSection(config: Config): Config {
    BeginGroup(ClearGroup(config), CameraGroup)
  }

  function ChannelSection(config: Config, i: nat): (c: Config)
    ensures c.values == config.values
    ensures c.group == [CameraGroup, ChannelGroupPrefix + Decimal(i)]
  {
    BeginGroup(CameraSection(config), ChannelGroupPrefix + Decimal(i))
  }

  /** The loop body of `updateConfig` for indices `0 .. n-1`. */
  function BuildChannels(m: Manager, config: Config, n: nat): (cs: seq<Channel>)
    ensures |cs| == n
    ensures forall i | 0 <= i < n :: cs[i] == NewChannel(Some(m), ChannelSection(config, i))
    ensures forall i | 0 <= i < n :: Resolved(cs[i], m) && CacheOrdered(cs[i])
  {
    seq(n, (i: int) requires 0 <= i => NewChannel(Some(m), ChannelSection(config, i)))
  }

  /** The channel count `updateConfig` reads. */
  function NumChannels(config: Config): int {
    IntValue(CameraSection(config), NumChannelsKey)
  }

  /** `updateConfig()`: discards every channel and builds one per index
      `0 .. numChannels-1`, each from the device config positioned in that
      channel's group; none when the count is not positive. On that early
      return the config is left inside the camera group. */
  function UpdateConfig(d: Device): (r: Device)
    requires Registered(d.manager)
    ensures r.image == d.image && r.manager == d.manager
    ensures NumChannels(d.config) <= 0 ==> |r.channels| == 0
    ensures NumChannels(d.config) > 0 ==> |r.channels| == NumChannels(d.config)
    ensures forall i | 0 <= i < |r.channels| ::
      r.channels[i] == NewChannel(Some(d.manager), ChannelSection(d.config, i))
    ensures forall i | 0 <= i < |r.channels| ::
      && !r.channels[i].valid
      && r.channels[i].config.values == d.config.values
      && r.channels[i].config.group == [CameraGroup, ChannelGroupPrefix + Decimal(i)]
    ensures r.config.values == d.config.values
    ensures r.config.group == if NumChannels(d.config) <= 0 then [CameraGroup] else []
    ensures Valid(r)
  {
    var section := CameraSection(d.config);
    var n := NumChannels(d.config);
    if n <= 0 then d.(channels := [], config := section)
    else
      d.(channels := BuildChannels(d.manager, d.config, n), config := EndGroup(section))
  }

  /** `setConfig(config)`: replaces the config and rebuilds the channels. */
  function SetConfig(d: Device, config: Config): (r: Device)
    requires Registered(d.manager)
    ensures Valid(r)
    ensures r.image == d.image && r.manager == d.manager
    ensures r.config.values == config.values
    ensures |r.channels| == if NumChannels(config) <= 0 then 0 else NumChannels(config)
    ensures forall i | 0 <= i < |r.channels| ::
      r.channels[i] == NewChannel(Some(d.manager), ChannelSection(config, i))
    ensures r.config.group == if NumChannels(config) <= 0 then [CameraGroup] else []
  {
    UpdateConfig(d.(config := config))
  }

  /** `Device(inputProvider)` given what `Config::load` of the default
      configuration returned. */
  function NewDevice(loaded: Option<Config>): (d: Device)
    ensures Valid(d)
    ensures d.image == InitialImage && d.manager == DefaultManager()
    ensures loaded.None? ==> d.channels == [] && d.config == Config(map[], [])
    ensures loaded.Some? ==> d.config.values == loaded.value.values
    ensures loaded.Some? ==>
      |d.channels| == if NumChannels(loaded.value) <= 0 then 0 else NumChannels(loaded.value)
    ensures loaded.Some? ==> forall i | 0 <= i < |d.channels| ::
      d.channels[i] == NewChannel(Some(DefaultManager()), ChannelSection(loaded.value, i))
  {
    var d := Device(InitialImage, DefaultManager(), [], Config(map[], []));
    if loaded.None? then d else SetConfig(d, loaded.value)
  }

  /** A device after `update()` and the result of the call. */
  datatype Updated = Updated(device: Device, ok: bool)

  /** `update()`, given what the input provider's `next` produced (`None`
      when it failed). A failure empties the frame and touches nothing else;
      success without channels only stores the frame; otherwise the frame is
      broadcast to every impl and every channel is invalidated. */
  function Update(d: Device, next: Option<Frame>): (r: Updated)
    ensures r.ok <==> next.Some?
    ensures next.None? ==> r.device == d.(image := Blank)
    ensures next.Some? && |d.channels| == 0 ==> r.device == d.(image := next.value)
    ensures next.Some? && |d.channels| > 0 ==>
      && r.device.image == next.value
      && r.device.config == d.config
      && r.device.manager == Broadcast(d.manager, next.value)
      && |r.device.channels| == |d.channels|
      && forall i | 0 <= i < |d.channels| :: r.device.channels[i] == Invalidate(d.channels[i])
    ensures Valid(d) ==> Valid(r.device)
  {
    if next.None? then Updated(d.(image := Blank), false)
    else if |d.channels| == 0 then Updated(d.(image := next.value), true)
    else
      var channels := seq(|d.channels|, (i: int) requires 0 <= i < |d.channels| => Invalidate(d.channels[i]));
      Updated(Device(next.value, Broadcast(d.manager, next.value), channels, d.config), true)
  }

  /** A device after one of its channels was queried, and the answer. */
  datatype Queried = Queried(device: Device, objects: Option<seq<Object>>)

  /** `channels()[i]->objects()`: the channel's own query, with the effect on
      the shared impl written back into the device. */
  function DeviceChannelObjects(d: Device, i: nat, find: Detector): (r: Queried)
    requires Valid(d) && i < |d.channels|
    ensures Valid(r.device)
    ensures r.device.image == d.image && r.device.config == d.config
    ensures |r.device.channels| == |d.channels|
    ensures forall j | 0 <= j < |d.channels| && j != i :: r.device.channels[j] == d.channels[j]
    ensures r.objects.None? <==> d.channels[i].impl.None?
    ensures r.objects.Some? ==> r.objects == Some(r.device.channels[i].cache) && r.device.channels[i].valid
    ensures d.channels[i].impl.None? || d.channels[i].valid ==> r.device == d
    ensures r.device.manager.impls.Keys == d.manager.impls.Keys
    ensures forall name | name in d.manager.impls && Some(name) != d.channels[i].impl ::
      r.device.manager.impls[name] == d.manager.impls[name]
    ensures d.channels[i].impl.Some? && !d.channels[i].valid ==>
      && r.objects.Some?
      && multiset(r.objects.value)
         == multiset(ImplObjects(d.manager.impls[d.channels[i].impl.value], d.channels[i].config, find).objects)
      && LargestAreaFirst(r.objects.value)
  {
    var a := ChannelObjects(d.channels[i], d.manager, find);
    var r := Queried(d.(channels := d.channels[i := a.channel], manager := a.manager), a.objects);
    assert Registered(r.device.manager) by {
      if d.channels[i].impl.Some? && !d.channels[i].valid {
        var name := d.channels[i].impl.value;
        assert a.manager.impls[name].kind == d.manager.impls[name].kind;
      }
    }
    r
  }

  /** After a successful `update()`, querying a channel twice recomputes
      once: its impl's preprocessing runs exactly once, on the new frame; the
      second answer equals the first; and the list is the impl's detection on
      that frame with the channel's config, in largest-area-first order. */
  lemma UpdateThenQueryRecomputesOnce(d: Device, frame: Frame, i: nat, find: Detector)
    requires Valid(d) && i < |d.channels| && d.channels[i].impl.Some?
    ensures var u := Update(d, Some(frame)).device;
      var name := d.channels[i].impl.value;
      var q1 := DeviceChannelObjects(u, i, find);
      var q2 := DeviceChannelObjects(q1.device, i, find);
      && q2.objects == q1.objects
      && q2.device == q1.device
      && q1.device.manager.impls[name].updates == d.manager.impls[name].updates + 1
      && q1.device.manager.impls[name].prepared == Stored(frame)
      && q1.objects.Some?
      && multiset(q1.objects.value) == multiset(find(name, Stored(frame), d.channels[i].config))
      && LargestAreaFirst(q1.objects.value)
  {
  }

  /** Two channels of one type, each with its own config, share the type's
      impl: after a new frame, querying both runs the preprocessing once and
      the detection twice, each with that channel's own config. */
  lemma ChannelsShareOnePreprocessing(d: Device, frame: Frame, i: nat, j: nat, find: Detector)
    requires Valid(d) && i < |d.channels| && j < |d.channels| && i != j
    requires d.channels[i].impl.Some? && d.channels[i].impl == d.channels[j].impl
    ensures var u := Update(d, Some(frame)).device;
      var name := d.channels[i].impl.value;
      var qi := DeviceChannelObjects(u, i, find);
      var qj := DeviceChannelObjects(qi.device, j, find);
      && qj.device.manager.impls[name].updates == d.manager.impls[name].updates + 1
      && qj.device.manager.impls[name].finds == d.manager.impls[name].finds + 2
      && multiset(qi.objects.value) == multiset(find(name, Stored(frame), d.channels[i].config))
      && multiset(qj.objects.value) == multiset(find(name, Stored(frame), d.channels[j].config))
  {
  }

  /** An `update()` while the device has no channels stores the frame but
      never hands it to the impls: channels configured afterwards run their
      first preprocessing pass on the impl's last frame, here the empty one,
      while the device reports the new frame's size. */
  lemma ChannellessUpdateNeverReachesImpls(f: Frame, config: Config, find: Detector)
    requires !Empty(f)
    requires var d := SetConfig(Update(NewDevice(None), Some(f)).device, config);
      |d.channels| > 0 && d.channels[0].impl.Some?
    ensures var d := SetConfig(Update(NewDevice(None), Some(f)).device, config);
      var q := DeviceChannelObjects(d, 0, find);
      && Width(d) == f.cols && Height(d) == f.rows
      && q.device.manager.impls[d.channels[0].impl.value].prepared == Blank
  {
  }

  /** Before the first `update()` a device reports the constructor's frame:
      240 wide and 320 high. */
  lemma InitialSize(loaded: Option<Config>)
    ensures Width(NewDevice(loaded)) == 240 && Height(NewDevice(loaded)) == 320
  {
  }

  /** A failed `update()` reports width and height 0. */
  lemma FailedUpdateHasNoSize(d: Device)
    ensures var u := Update(d, None).device;
      Width(u) == 0 && Height(u) == 0 && u.channels == d.channels && u.manager == d.manager
  {
  }
}

=== FILE: objects.dfy ===
/** A detection result: centroid, bounding box, confidence and an optional
    owned byte payload (`Camera::Object`). Objects are values here, so a copy
    can never share its payload with the original; what the model keeps of
    the copy constructor is exactly which bytes the copy holds. */
module Objects {
  import opened Basics

  /** `Point2<unsigned>`. */
  datatype Point2 = Point2(x: nat, y: nat)

  /** `Rect<unsigned>`. */
  datatype Rect = Rect(x: nat, y: nat, width: nat, height: nat)

  const UnsignedModulus: nat := 0x1_0000_0000

  /** `Rect<unsigned>::area()`: width times height in 32-bit unsigned
      arithmetic. */
  function Area(r: Rect): (a: nat)
    ensures a < UnsignedModulus
    ensures r.width * r.height < UnsignedModulus ==> a == r.width * r.height
  {
    (r.width * r.height) % UnsignedModulus
  }

  /** An object together with the buffer it owns (`None` is a null `m_data`).
      `dataLength` is kept even when there is no buffer, as the constructor
      does. */
  datatype Object = Object(
    centroid: Point2,
    boundingBox: Rect,
    confidence: real,
    data: Option<seq<byte>>,
    dataLength: nat)

  /** The buffer, when present, holds at least `dataLength` bytes. */
  predicate WellFormed(o: Object) {
    o.data.Some? ==> o.dataLength <= |o.data.value|
  }

  /** What a caller of `data()` / `dataLength()` can read: the first
      `dataLength` bytes of the buffer, or nothing for a null buffer. */
  function Payload(o: Object): Option<seq<byte>>
    requires WellFormed(o)
  {
    if o.data.None? then None else Some(o.data.value[..o.dataLength])
  }

  /** The main constructor: copies `dataLength` bytes of `data` into a fresh
      buffer, or leaves the buffer null when `data` is null. */
  function MakeObject(centroid: Point2, boundingBox: Rect, confidence: real,
                      data: Option<seq<byte>>, dataLength: nat): (o: Object)
    requires data.Some? ==> dataLength <= |data.value|
    ensures WellFormed(o)
    ensures o.centroid == centroid && o.boundingBox == boundingBox
    ensures o.confidence == confidence && o.dataLength == dataLength
    ensures data.None? ==> Payload(o).None?
    ensures data.Some? ==> Payload(o) == Some(data.value[..dataLength])
    ensures data.Some? ==> |o.data.value| == dataLength
  {
    var buffer := if data.None? then None else Some(data.value[..dataLength]);
    assert data.Some? ==> buffer.value[..dataLength] == data.value[..dataLength];
    Object(centroid, boundingBox, confidence, buffer, dataLength)
  }

  /** The copy constructor: a fresh buffer of `dataLength + 1` bytes holding
      the source's payload followed by a terminating zero. */
  function CopyObject(rhs: Object): (o: Object)
    requires WellFormed(rhs)
    ensures WellFormed(o)
    ensures o.data.Some? <==> rhs.data.Some?
    ensures o.data.Some? ==> |o.data.value| == rhs.dataLength + 1
    ensures o.data.Some? ==> o.data.value[rhs.dataLength] == 0
  {
    var buffer := if rhs.data.None? then None
                  else Some(rhs.data.value[..rhs.dataLength] + [0]);
    Object(rhs.centroid, rhs.boundingBox, rhs.confidence, buffer, rhs.dataLength)
  }

  /** Two objects that no accessor can tell apart. */
  predicate SameObservable(a: Object, b: Object)
    requires WellFormed(a) && WellFormed(b)
  {
    && a.centroid == b.centroid
    && a.boundingBox == b.boundingBox
    && a.confidence == b.confidence
    && a.dataLength == b.dataLength
    && Payload(a) == Payload(b)
  }

  /** A copy reads back exactly like the original, and copying a copy gives
      the same buffer again. */
  lemma CopyPreservesObservable(o: Object)
    requires WellFormed(o)
    ensures SameObservable(CopyObject(o), o)
    ensures CopyObject(CopyObject(o)) == CopyObject(o)
  {
  }

}

=== FILE: sorting.dfy ===
/** Ordering by an integer key, used for both sorts of the core: detected
    objects by bounding-box area and depth segments by the depth of their
    middle column. `std::sort` promises a permutation that is ordered by the
    comparator and nothing about the order of equal keys; `Sort` below is one
    such permutation (it happens to keep equal keys in input order). */
module Sorting {

  /** `s` is ordered by non-decreasing `key`. */
  predicate SortedBy<T>(s: seq<T>, key: T -> int) {
    forall i, j | 0 <= i < j < |s| :: key(s[i]) <= key(s[j])
  }

  /** Inserts `x` into the sorted `s` in front of the first element whose key
      is not smaller than the key of `x`. */
  function Insert<T>(x: T, s: seq<T>, key: T -> int): (r: seq<T>)
    requires SortedBy(s, key)
    ensures SortedBy(r, key)
    ensures multiset(r) == multiset(s) + multiset{x}
    ensures forall k | 0 <= k < |r| :: r[k] == x || r[k] in s
  {
    if |s| == 0 then [x]
    else if key(x) <= key(s[0]) then [x] + s
    else
      assert s == [s[0]] + s[1..];
      [s[0]] + Insert(x, s[1..], key)
  }

  /** A permutation of `s` ordered by non-decreasing `key`. */
  function Sort<T>(s: seq<T>, key: T -> int): (r: seq<T>)
    ensures SortedBy(r, key)
    ensures multiset(r) == multiset(s)
  {
    if |s| == 0 then []
    else
      assert s == [s[0]] + s[1..];
      Insert(s[0], Sort(s[1..], key), key)
  }

  /** Dropping one element keeps a sequence sorted. */
  lemma RemoveKeepsSorted<T>(b: seq<T>, k: nat, rest: seq<T>, key: T -> int)
    requires SortedBy(b, key) && k < |b| && rest == b[..k] + b[k + 1..]
    ensures SortedBy(rest, key)
  {
  }

  /** Dropping the head keeps a sequence sorted. */
  lemma TailKeepsSorted<T>(a: seq<T>, key: T -> int)
    requires SortedBy(a, key) && |a| > 0
    ensures SortedBy(a[1..], key)
  {
  }

  /** Dropping the element at `k` removes one occurrence of it. */
  lemma RemoveOneOccurrence<T>(b: seq<T>, k: nat)
    requires k < |b|
    ensures multiset(b[..k] + b[k + 1..]) == multiset(b) - multiset{b[k]}
  {
    assert b == b[..k] + [b[k]] + b[k + 1..];
  }

  /** The key at the head of a sorted sequence is its smallest. */
  lemma HeadHasSmallestKey<T>(a: seq<T>, b: seq<T>, key: T -> int)
    requires SortedBy(a, key) && SortedBy(b, key)
    requires multiset(a) == multiset(b) && |a| > 0 && |b| > 0
    ensures key(a[0]) == key(b[0])
  {
    assert a[0] in multiset(b);
    assert b[0] in multiset(a);
  }

  /** The induction step: `b` with its element at `k` removed lines up
      with the tail of `a`, and everything in front of `k` has the head's key. */
  lemma AlignAfterRemoval<T>(a: seq<T>, b: seq<T>, k: nat, key: T -> int)
    requires SortedBy(b, key) && |a| == |b| && k < |b|
    requires key(a[0]) == key(b[0]) == key(b[k])
    requires forall i | 0 <= i < |a| - 1 :: key(a[1..][i]) == key((b[..k] + b[k + 1..])[i])
    ensures forall i | 0 <= i < |a| :: key(a[i]) == key(b[i])
  {
    var rest := b[..k] + b[k + 1..];
    forall i | 0 < i < |a|
      ensures key(a[i]) == key(b[i])
    {
      assert a[1..][i - 1] == a[i];
      if i <= k {
        assert rest[i - 1] == b[i - 1];
        assert key(b[0]) <= key(b[i - 1]) <= key(b[i]) <= key(b[k]);
      } else {
        assert rest[i - 1] == b[i];
      }
    }
  }

  /** The head of `a` occurs in `b` at some `k`; removing it from both leaves
      two sorted sequences with the same elements. */
  lemma RemoveHead<T>(a: seq<T>, b: seq<T>, key: T -> int) returns (k: nat)
    requires SortedBy(a, key) && SortedBy(b, key)
    requires multiset(a) == multiset(b) && |a| > 0
    ensures k < |b| && key(b[k]) == key(a[0]) == key(b[0])
    ensures SortedBy(a[1..], key) && SortedBy(b[..k] + b[k + 1..], key)
    ensures multiset(a[1..]) == multiset(b[..k] + b[k + 1..])
  {
    assert a[0] in multiset(b);
    k :| 0 <= k < |b| && b[k] == a[0];
    HeadHasSmallestKey(a, b, key);
    RemoveOneOccurrence(b, k);
    assert a == [a[0]] + a[1..];
    assert multiset(a[1..]) == multiset(a) - multiset{a[0]};
    RemoveKeepsSorted(b, k, b[..k] + b[k + 1..], key);
    TailKeepsSorted(a, key);
  }

  /** Any two orderings by `key` of the same elements have the same key at
      every position, so the order `Sort` picks among equal keys is invisible
      to everything that only compares keys: every `std::sort` result agrees
      with it there. */
  lemma {:induction false} SortedPermutationsHaveSameKeys<T>(a: seq<T>, b: seq<T>, key: T -> int)
    requires SortedBy(a, key) && SortedBy(b, key)
    requires multiset(a) == multiset(b)
    ensures |a| == |b|
    ensures forall i | 0 <= i < |a| :: key(a[i]) == key(b[i])
    decreases |a|
  {
    assert |a| == |multiset(a)| == |multiset(b)| == |b|;
    if |a| > 0 {
      var k := RemoveHead(a, b, key);
      SortedPermutationsHaveSameKeys(a[1..], b[..k] + b[k + 1..], key);
      AlignAfterRemoval(a, b, k, key);
    }
  }
}
